=== FILE: README.md ===
# Sign-up and post publication of my-pet-community, in Dafny

This project models the two pieces of the pet community web client that make
decisions of their own:

- the **sign-up form** (`src/components/SignUp/SignUp.tsx`): nickname
  pre-validation, the nickname availability check and the "duplicate" flag
  that blocks sign-up, the ordered guards of the sign-up button, the email
  regular expression, the mapping of the identity provider's error codes to
  field warnings, and the calls made after the account is created;
- the **writing page** (`src/pages/Writing/Writing.tsx`): `addPost`, which
  uploads an optional image, writes the post to `freeboard` and its empty
  comment list to `comment`, and the session guard installed on mount.

Every Firebase call (Auth, Firestore, Storage) is an abstract oracle: the
model records the call as an `Effect` in a trace, and the call's outcome is a
parameter of the step that issues it. A step returns the component state
after all callbacks it started have run, and the trace of calls, alerts and
navigations in the order the code issues them. Alerts and warnings are
message classes, not the Korean texts.

Files:

- `common.dfy` (`Common`): the main route and the order of issue in a trace.
- `js_text.dfy` (`JsText`): ASCII character classes, ECMAScript line
  terminators, and `String.length` as a count of UTF-16 code units.
- `email_pattern.dfy` (`EmailPattern`): the language of
  `/^[A-Za-z0-9]*@[A-Za-z0-9]*.[A-Za-z]{2,3}$/` as an existential split
  (`InLanguage`), a one-pass scanner (`Test`), their equivalence, and
  concrete acceptances and rejections.
- `sign_up.dfy` (`SignUp`): the form as a state machine over user actions.
- `nickname_registry.dfy` (`NicknameRegistry`): the `userNickname`
  collection as a map from uid to claim, which gives the availability query
  and the claim write a common meaning.
- `writing.dfy` (`Writing`): `addPost` and the session guard.

Some of what the code does is easy to misread; the model keeps to the code:

- After the account is created, `goToMain()` runs right after
  `updateProfile` is issued, without waiting for it. So the navigation home
  comes before the claim write in the trace, not after it.
- A provider error code other than the three recognised ones produces no
  alert and no warning; only a console message is logged. There is no
  generic failure notice.
- The loading indicator is not always cleared. On the writing page it stays
  on after an empty submission. It also stays on when the image upload or
  the URL resolution rejects, because the rejected `await` ends `addPost`.
- The degraded-success message is shown only when the display-name update
  fails. The claim write's outcome is never observed, so a failed claim
  still reports success.
- The nickname length check uses JavaScript's `.length`, which counts UTF-16
  code units. A nickname made of one character outside the Basic
  Multilingual Plane, such as an emoji, passes the "at least 2 characters"
  check.
- The regular expression has no `u` flag, so its `.` matches one code unit.
  An astral character can therefore never be matched.

## Model

| member | source | states |
|---|---|---|
| JsText.Utf16Length | src/components/SignUp/SignUp.tsx:64 | the JavaScript length lies between the character count and twice it, is 0 only for the empty string, and equals the character count exactly when no character is astral |
| JsText.ShorterThanTwo | src/components/SignUp/SignUp.tsx:62-65 | a nickname is too short exactly when it is empty or a single BMP character; one astral character already passes |
| EmailPattern.Test | src/components/SignUp/SignUp.tsx:79-80 | the one-pass scan that stands for `expEmail.test`; whatever it accepts has an '@' followed by at least three characters (its exact language is `EmailPattern.TestIsLanguage`) |
| EmailPattern.SkipAlnum | src/components/SignUp/SignUp.tsx:79 | the scan of `[A-Za-z0-9]*` stops at the first non-alphanumeric character at or after the start, and everything before it is alphanumeric |
| EmailPattern.TestIsLanguage | src/components/SignUp/SignUp.tsx:79-80 | the one-pass test accepts a string exactly when it splits as alphanumerics, '@', alphanumerics, one non-line-terminator code unit, and 2 or 3 ASCII letters |
| EmailPattern.TestSound | src/components/SignUp/SignUp.tsx:79-80 | every string the test accepts has such a split |
| EmailPattern.TestComplete | src/components/SignUp/SignUp.tsx:79-80 | every string with such a split is accepted by the test, because the '@' must follow the maximal alphanumeric prefix |
| EmailPattern.TailFitsAt | src/components/SignUp/SignUp.tsx:79 | a '.' position preceded by an alphanumeric run and followed by two or three letters is a tail the scan accepts |
| EmailPattern.SplitAt | src/components/SignUp/SignUp.tsx:79 | a split can be checked position by position: alphanumerics before the '@', alphanumerics up to the `.` unit, and two or three letters after it |
| EmailPattern.AlnumRunEnds | src/components/SignUp/SignUp.tsx:79 | an alphanumeric stretch is covered by the scan, and the scan stops exactly at a following non-alphanumeric character |
| EmailPattern.AcceptedShape | src/components/SignUp/SignUp.tsx:79 | every accepted email contains '@', has at least four characters and ends in two ASCII letters |
| EmailPattern.AcceptsPlaceholder | src/components/SignUp/SignUp.tsx:181 | the placeholder address abc1234@abc.com is accepted |
| EmailPattern.AcceptsDomainWithoutDot | src/components/SignUp/SignUp.tsx:79 | abc@abccom is accepted, because the `.` is unescaped |
| EmailPattern.RejectsDotInLocalPart | src/components/SignUp/SignUp.tsx:79 | a.b@c.com is rejected, since no full stop may come before the '@' |
| EmailPattern.RejectsFourLetterTail | src/components/SignUp/SignUp.tsx:79 | abc@abc.info is rejected, since the tail allows at most three letters |
| EmailPattern.RejectsLineBreakAtDot | src/components/SignUp/SignUp.tsx:79 | a line break cannot stand in for the `.` |
| SignUp.Initial | src/components/SignUp/SignUp.tsx:22-31 | the form mounts with every field empty, no warning, not loading, and the blocking flag cleared |
| SignUp.Handle | src/components/SignUp/SignUp.tsx:154-202 | typing in any field stores the value and issues nothing, a nickname edit also sets the blocking flag; only the check button can query, and only the sign-up button can call the provider |
| SignUp.EditNickname | src/components/SignUp/SignUp.tsx:166-169 | a nickname edit stores the new text, sets the blocking flag and changes nothing else |
| SignUp.CheckNickname | src/components/SignUp/SignUp.tsx:39-69 | below two code units there is a warning (enter a nickname / too short) and no query; otherwise the only query is the equality query on `userNickname.nickname` for the typed nickname; a non-empty result sets the flag, clears loading and alerts "taken" without the "available" alert; an empty result clears the flag, leaves loading as it was and alerts "available"; a rejected query issues nothing after the query and changes nothing; only the flag, loading and the nickname warning can change, and the provider is never called |
| SignUp.OnCreateFailed | src/components/SignUp/SignUp.tsx:121-140 | email-in-use and invalid-email set the email warning; weak-password clears the email warning and sets the password warning; any other code changes no warning and alerts nothing; loading ends off |
| SignUp.OnCreated | src/components/SignUp/SignUp.tsx:93-120 | the display-name update for the new uid is issued first; the user is sent home whatever its outcome; the claim is written, under the uid and with the typed nickname, exactly when the update succeeds; a failed update gives the degraded-success alert and keeps the typed fields; nothing else is issued (four effects after a successful update, three after a failed one) |
| SignUp.RequestSignUp | src/components/SignUp/SignUp.tsx:71-142 | the provider is called exactly when all three guards pass. Each failing guard gives its own abort, checked in order: flag (alert only), email pattern (email warning), confirmation (password warning cleared, confirm warning set). Loading always ends off and availability is never re-queried. The claim is written only after creation and a successful display-name update, under the new uid, with the typed nickname. The account is created once: no second creation follows the first |
| SignUp.BlockedUntilClearingCheck | src/components/SignUp/SignUp.tsx:49-78 | once the flag is set it stays set, and no provider call is made, over any run of actions without a check whose query finds no match |
| SignUp.EditBlocksUntilClearingCheck | src/components/SignUp/SignUp.tsx:166-169 | after any nickname edit, no account is created until a check finds no match |
| SignUp.SuccessOrder | src/components/SignUp/SignUp.tsx:92-119 | on success the account is created before the display-name update, the update is issued before the claim write, and the navigation home is issued before the claim write; the whole trace is exactly create, update, navigate home, claim, success alert |
| SignUp.DegradedSuccess | src/components/SignUp/SignUp.tsx:98-119 | when the display-name update fails, the account exists and the user is sent home, but no claim is written and the degraded-success alert replaces the success alert; the whole trace is exactly create, update, navigate home, degraded alert |
| SignUp.CreateRejectedStops | src/components/SignUp/SignUp.tsx:121-141 | a rejected account creation is followed only by alerts: no update, no claim, no navigation, loading off |
| SignUp.FillIn | src/components/SignUp/SignUp.tsx:184-202 | typing the email, the password and the confirmation only stores them, and issues nothing |
| SignUp.FillAndSubmit | src/components/SignUp/SignUp.tsx:184-202 | filling in the three fields and then signing up issues exactly the sign-up's calls, for the filled-in form |
| SignUp.CheckedSignUp | src/components/SignUp/SignUp.tsx:39-119 | typing a long enough nickname, getting a no-match check, typing an accepted email and the same password twice, then signing up, creates the account, names it with the nickname and claims it under the new uid |
| SignUp.FluffyScenario | src/components/SignUp/SignUp.tsx:39-119 | the same for the nickname fluffy, abc1234@abc.com and secret1 |
| SignUp.UncheckedSignUp | src/components/SignUp/SignUp.tsx:23 | as written, a fresh form with an accepted email and matching passwords signs up without any nickname check, and claims the empty nickname |
| SignUp.UncheckedSignUpExample | src/components/SignUp/SignUp.tsx:23 | the same with abc1234@abc.com and secret1 |
| SignUp.IntendedInitial | src/components/SignUp/SignUp.tsx:23 | the corrected initial state differs from the initial state only in that the flag is set |
| SignUp.IntendedInitialBlocks | src/components/SignUp/SignUp.tsx:74-78 | from the corrected initial state, no provider call is made before a check that finds no match |
| NicknameRegistry.Holders | src/components/SignUp/SignUp.tsx:40-47 | the equality query returns only uids whose claim document is for that nickname, and every uid whose claim is for that nickname is returned, so it returns nothing exactly when no account has claimed it |
| NicknameRegistry.ApplyClaims | src/components/SignUp/SignUp.tsx:104-106 | after the claim writes land, the store's keys are the old keys plus the keys written |
| NicknameRegistry.CheckReflectsStore | src/components/SignUp/SignUp.tsx:39-59 | for a queried nickname, the flag ends up set exactly when some account already claims it |
| NicknameRegistry.CheckIdempotent | src/components/SignUp/SignUp.tsx:39-59 | two checks in a row against an unchanged store give the same form and the same trace |
| NicknameRegistry.SignUpClaims | src/components/SignUp/SignUp.tsx:104-106 | after a completed sign-up the store holds a claim for the nickname under the new uid, so the nickname is taken |
| NicknameRegistry.ApplyOneClaim | src/components/SignUp/SignUp.tsx:104-106 | a trace whose only claim write is one document leaves exactly that document written |
| NicknameRegistry.ApplyNoClaims | src/components/SignUp/SignUp.tsx:104-106 | a trace with no claim write leaves the store unchanged |
| NicknameRegistry.ApplyClaimsKeeps | src/components/SignUp/SignUp.tsx:104-106 | claim writes under other keys leave a document unchanged |
| NicknameRegistry.ClaimSurvives | src/components/SignUp/SignUp.tsx:104-106 | a sign-up leaves other accounts' claims unchanged |
| NicknameRegistry.CheckedPasses | src/components/SignUp/SignUp.tsx:39-78 | a form whose nickname is free in the store, with an accepted email and matching passwords, passes every guard after its check |
| NicknameRegistry.TwoSignUps | src/components/SignUp/SignUp.tsx:104-106 | two sign-ups with the same nickname that both pass the guards leave both new uids among the nickname's holders |
| NicknameRegistry.CheckThenClaimGap | src/components/SignUp/SignUp.tsx:39-59 | the claim write does not re-check availability. Two sign-ups with the same nickname, checked against the same store before either claim lands, both pass, and the nickname ends up claimed twice |
| Writing.WritePost | src/pages/Writing/Writing.tsx:58-78 | the post write is issued first. The comment list, empty and keyed by the post id, is written exactly when the post write succeeds, and so are the success alert and the navigation home. The failure alert is shown exactly when the post write fails. Storage is not touched, and loading ends off. Nothing else is issued: four effects after a successful write, two after a failed one |
| Writing.UploadThenWrite | src/pages/Writing/Writing.tsx:47-53 | the upload comes first, keyed by the post id. The URL is resolved, for the same key, exactly when the upload succeeds. Every key is the post id. A written post stores the resolved URL. A rejected upload or URL leaves only storage calls and the page unchanged |
| Writing.AddPost | src/pages/Writing/Writing.tsx:39-80 | empty text sets the content warning, issues nothing and leaves loading on. Storage is touched exactly when there is text and an attachment, and the upload comes first. Loading ends off exactly when the post write was issued. An earlier warning is not cleared |
| Writing.PostContents | src/pages/Writing/Writing.tsx:41-66 | about the record `Writing.NewPost` builds and the keys used: every key a submission uses is its one post id. The post carries that id, the creation time, the session's user id, nickname and image, and the typed text. Its image URL is the resolved URL, or "" without an attachment |
| Writing.WriteOrder | src/pages/Writing/Writing.tsx:58-78 | the post is written exactly when the submission gets that far; the empty comment list, the success alert and the navigation exactly when that write succeeds; the failure alert exactly when it fails |
| Writing.UploadedWriteOrder | src/pages/Writing/Writing.tsx:47-78 | after a successful upload and URL, the post is written, and the comment list, success alert and navigation follow exactly when that write succeeds |
| Writing.AttachmentOrder | src/pages/Writing/Writing.tsx:47-68 | with an attachment and all calls succeeding, the trace begins upload, URL, post, comment list, all under the post id, and the post stores the resolved URL |
| Writing.HelloWithoutAttachment | src/pages/Writing/Writing.tsx:54-68 | the text hello without an attachment writes a post with an empty image URL and an empty comment list, and never calls storage |
| Writing.StorageFailureWritesNothing | src/pages/Writing/Writing.tsx:51-53 | a rejected upload or URL resolution writes no document and leaves loading on |
| Writing.MountGuard | src/pages/Writing/Writing.tsx:82-84 | mounting turns loading on and registers one session listener, changing nothing else |
| Writing.OnSessionEvent | src/pages/Writing/Writing.tsx:84-97 | every delivery turns loading off; a signed-out delivery issues exactly the alert and the navigation home, a signed-in one issues nothing |
| Writing.GuardSession | src/pages/Writing/Writing.tsx:82-97 | loading is on from mounting until the first delivery and off after any; the user is sent home once for every signed-out event delivered, so at least once exactly when one is delivered |
| Writing.ObserveFacts | src/pages/Writing/Writing.tsx:84-97 | over any run of deliveries, loading ends off after at least one, and the navigation home happens exactly when one is signed-out |
| Writing.NavigationCount | src/pages/Writing/Writing.tsx:84-97 | over any run of deliveries, the navigations home are exactly as many as the signed-out deliveries |

## Left out

- Sign-in (`src/pages/SignIn/SignIn.tsx`), including the two federated popup providers, sign-out (`src/components/SignOut/SignOut.tsx`) and the header (`src/components/Header/Header.tsx`). They are thin wrappers around the SDK: errors are swallowed and nothing is decided.
- `src/assets/icons/WritingIcon.tsx`: static SVG.
- JSX rendering, styles and the UI kit. The input limits (`maxLength` 10 for the nickname, 50 for the other sign-up fields, 1000 for the post text) and the 1 MB image limit are enforced by those components, not by the modelled code.
- The Firebase SDKs, the network and promise scheduling. Each handler runs to completion, with all its callbacks, before the next user action. So a nickname edit made while a check's query is pending is not modelled. The stale result could then clear the flag for the new nickname.
- Concurrent registrations. The check-then-claim gap is shown only as two sign-ups that both check before either claim lands (`NicknameRegistry.CheckThenClaimGap`), not as an interleaving.
- The outcomes of the claim write and of the comment-list write. The code never awaits or inspects them, so they are not parameters.
- `uuidv4()` and `new Date().toLocaleString("ko-KR")`: they are the parameters `postId` and `createdTime` of `Writing.AddPost`.
- The user id, nickname and image read from the page's state store: they are the `Session` parameter.
- The writing page's attachment and text change handlers: they only store the value. The page state is a parameter of `Writing.AddPost`.
- The sign-up form's email, password and confirmation change handlers are modelled only as the `EmailInput`, `PasswordInput` and `ConfirmInput` actions of `SignUp.Handle`.
- The session listener's lifetime and unsubscription.
- Console logging. The exception thrown after a failed guard or a taken nickname is modelled as the handler stopping.
- Literal alert and warning texts: message classes are used instead.

## Findings

| source | as written | input that shows it | evidently intended | confidence | as-written member | corrected member |
|---|---|---|---|---|---|---|
| src/components/SignUp/SignUp.tsx:23 | the blocking flag `isDuplicateNickname` starts `false` | On a freshly opened form, type the email abc1234@abc.com and the password secret1 twice, then press sign-up without touching the nickname. The first guard passes, the account is created with display name "" and the claim `{nickname: ""}` is written | the nickname counts as unchecked until a check finds no match, as the first guard's alert ("the nickname has not passed the duplicate check yet") says, so the flag should start set | medium, not executed | SignUp.UncheckedSignUp | SignUp.IntendedInitialBlocks |

`SignUp.Initial` keeps the flag as written, because that is what the
component does. Every other lemma about the form holds for any starting form.
`SignUp.IntendedInitial` is the corrected starting state. `SignUp.IntendedInitialBlocks`
proves that, from it, no account is created before a check that finds no match.

=== FILE: common.dfy ===
/**
 What the sign-up form and the writing page share: the route they send the
 user to, and the order of issue in a trace of effects.
 */
module Common {
  /** The main page, the target of `navigate("/")`. */
  const Home := "/"

  /** Whether `a` is issued before `b` in the trace `t`. */
  predicate Precedes<T(==)>(t: seq<T>, a: T, b: T) {
    exists i, j :: 0 <= i < j < |t| && t[i] == a && t[j] == b
  }
}

=== FILE: email_pattern.dfy ===
/**
 The email check of the sign-up form, the regular expression

     /^[A-Za-z0-9]*@[A-Za-z0-9]*.[A-Za-z]{2,3}$/

 with no flags. Its `.` is not escaped, so it stands for any one UTF-16 code
 unit other than a line terminator, not for a literal full stop.

 `InLanguage` is the language of the expression written as "there is a split
 `L + "@" + D + [c] + T`"; `Test` decides it in one left-to-right scan, the
 way `RegExp.prototype.test` answers, and `TestIsLanguage` proves the two
 agree on every string.
 */
module EmailPattern {
  import opened JsText

  /**
   One code unit matched by `.`: not a line terminator, and not an astral
   character, which is two code units and could only be matched if the units
   around the `.` were non-alphanumeric, which none of them is.
   */
  predicate IsDotUnit(c: char) {
    !IsLineTerminator(c) && !IsAstral(c)
  }

  /**
   `s == L + "@" + D + [c] + T` with `at == |L|` and `dot == |L| + 1 + |D|`:
   L and D alphanumeric, c matched by `.`, T two or three letters.
   */
  predicate SplitMatches(s: string, at: nat, dot: nat) {
    && at < dot < |s|
    && AllAlnum(s[..at])
    && s[at] == '@'
    && AllAlnum(s[at + 1..dot])
    && IsDotUnit(s[dot])
    && 2 <= |s| - dot - 1 <= 3
    && AllLetters(s[dot + 1..])
  }

  /** The strings the regular expression accepts. */
  ghost predicate InLanguage(s: string) {
    exists at: nat, dot: nat :: SplitMatches(s, at, dot)
  }

  /** The first index at or after `i` whose character is not ASCII alphanumeric, or `|s|`. */
  function SkipAlnum(s: string, i: nat): (k: nat)
    requires i <= |s|
    ensures i <= k <= |s|
    ensures forall j :: i <= j < k ==> IsAsciiAlnum(s[j])
    ensures k < |s| ==> !IsAsciiAlnum(s[k])
    decreases |s| - i
  {
    if i == |s| || !IsAsciiAlnum(s[i]) then i else SkipAlnum(s, i + 1)
  }

  /**
   Whether `s[from..]` is `D + [c] + T` with a letter tail T of length `t`:
   the alphanumeric run from `from` reaches the `.` position.
   */
  predicate TailFits(s: string, from: nat, t: nat)
    requires from <= |s|
  {
    && from + t + 1 <= |s|
    && SkipAlnum(s, from) >= |s| - t - 1
    && IsDotUnit(s[|s| - t - 1])
    && AllLetters(s[|s| - t..])
  }

  /**
   The scan: the local part is the maximal alphanumeric prefix (it cannot
   stop earlier, since the next character must be '@'); after it, the tail
   is tried with three letters and with two. Whatever it accepts contains an
   '@' with at least three characters after it.
   */
  predicate Test(s: string): (b: bool)
    ensures b ==> exists k :: 0 <= k < |s| - 3 && s[k] == '@'
  {
    var at := SkipAlnum(s, 0);
    && at < |s|
    && s[at] == '@'
    && (TailFits(s, at + 1, 2) || TailFits(s, at + 1, 3))
  }

  /** The scan accepts exactly the language of the regular expression. */
  lemma TestIsLanguage(s: string)
    ensures Test(s) <==> InLanguage(s)
  {
    if Test(s) {
      TestSound(s);
    }
    if InLanguage(s) {
      TestComplete(s);
    }
  }

  /** A string the scan accepts has a split: the scan's own positions are one. */
  lemma TestSound(s: string)
    requires Test(s)
    ensures InLanguage(s)
  {
    var k := SkipAlnum(s, 0);
    var t := if TailFits(s, k + 1, 2) then 2 else 3;
    var dot := |s| - t - 1;
    var m := SkipAlnum(s, k + 1);
    assert m >= dot;
    assert AllAlnum(s[..k]) by {
      forall j | 0 <= j < k ensures IsAsciiAlnum(s[..k][j]) {
        assert s[..k][j] == s[j];
      }
    }
    var domain := s[k + 1..dot];
    assert AllAlnum(domain) by {
      forall j | 0 <= j < |domain| ensures IsAsciiAlnum(domain[j]) {
        assert domain[j] == s[k + 1 + j];
      }
    }
    assert SplitMatches(s, k, dot);
  }

  /** Any split puts the '@' right after the maximal alphanumeric prefix, where the scan looks. */
  lemma TestComplete(s: string)
    requires InLanguage(s)
    ensures Test(s)
  {
    var at: nat, dot: nat :| SplitMatches(s, at, dot);
    var k := SkipAlnum(s, 0);
    AlnumRunEnds(s, 0, at);
    assert k == at;
    AlnumRunEnds(s, at + 1, dot);
    TailFitsAt(s, at + 1, dot);
    assert TailFits(s, k + 1, 2) || TailFits(s, k + 1, 3);
  }

  /** The tail test in terms of the position of the `.` rather than the tail's length. */
  lemma TailFitsAt(s: string, from: nat, dot: nat)
    requires from <= dot < |s| && 2 <= |s| - dot - 1 <= 3
    requires SkipAlnum(s, from) >= dot && IsDotUnit(s[dot]) && AllLetters(s[dot + 1..])
    ensures TailFits(s, from, |s| - dot - 1)
  {
    var t := |s| - dot - 1;
    assert |s| - t - 1 == dot && |s| - t == dot + 1;
  }

  /**
   When `s[i..e]` is alphanumeric, the run starting at `i` reaches `e`; when
   `s[e]` is not alphanumeric, it stops exactly there.
   */
  lemma AlnumRunEnds(s: string, i: nat, e: nat)
    requires i <= e <= |s|
    requires AllAlnum(s[i..e])
    ensures SkipAlnum(s, i) >= e
    ensures e < |s| && !IsAsciiAlnum(s[e]) ==> SkipAlnum(s, i) == e
  {
    forall j | i <= j < e ensures IsAsciiAlnum(s[j]) {
      assert s[i..e][j - i] == s[j];
    }
  }

  /** Every accepted string has an '@', at least four characters, and ends in two ASCII letters. */
  lemma AcceptedShape(s: string)
    requires InLanguage(s)
    ensures '@' in s
    ensures |s| >= 4
    ensures IsAsciiLetter(s[|s| - 2]) && IsAsciiLetter(s[|s| - 1])
  {
    var at: nat, dot: nat :| SplitMatches(s, at, dot);
    assert s[dot + 1..][|s| - dot - 3] == s[|s| - 2];
    assert s[dot + 1..][|s| - dot - 2] == s[|s| - 1];
  }

  /** A split stated position by position, without slices. */
  lemma SplitAt(s: string, at: nat, dot: nat)
    requires at < dot < |s| && s[at] == '@' && IsDotUnit(s[dot]) && 2 <= |s| - dot - 1 <= 3
    requires forall j :: 0 <= j < at ==> IsAsciiAlnum(s[j])
    requires forall j :: at < j < dot ==> IsAsciiAlnum(s[j])
    requires forall j :: dot < j < |s| ==> IsAsciiLetter(s[j])
    ensures SplitMatches(s, at, dot)
  {
    forall j | 0 <= j < at ensures IsAsciiAlnum(s[..at][j]) {
      assert s[..at][j] == s[j];
    }
    var domain := s[at + 1..dot];
    forall j | 0 <= j < |domain| ensures IsAsciiAlnum(domain[j]) {
      assert domain[j] == s[at + 1 + j];
    }
    var tail := s[dot + 1..];
    forall j | 0 <= j < |tail| ensures IsAsciiLetter(tail[j]) {
      assert tail[j] == s[dot + 1 + j];
    }
  }

  /** The placeholder address of the email input is accepted. */
  lemma AcceptsPlaceholder()
    ensures InLanguage("abc1234@abc.com")
  {
    var s := "abc1234@abc.com";
    SplitAt(s, 7, 11);
  }

  /** Because the `.` is unescaped, a domain without any full stop is accepted. */
  lemma AcceptsDomainWithoutDot()
    ensures InLanguage("abc@abccom")
  {
    var s := "abc@abccom";
    SplitAt(s, 3, 7);
  }

  /** No full stop is allowed before the '@'. */
  lemma RejectsDotInLocalPart()
    ensures !InLanguage("a.b@c.com")
  {
    var s := "a.b@c.com";
    assert SkipAlnum(s, 0) == 1;
    TestIsLanguage(s);
  }

  /** A top-level part of four letters is too long. */
  lemma RejectsFourLetterTail()
    ensures !InLanguage("abc@abc.info")
  {
    var s := "abc@abc.info";
    assert SkipAlnum(s, 0) == 3;
    assert SkipAlnum(s, 4) == 7;
    TestIsLanguage(s);
  }

  /** The `.` does not match a line break. */
  lemma RejectsLineBreakAtDot()
    ensures !InLanguage("abc@abc\ncom")
  {
    var s := "abc@abc\ncom";
    assert SkipAlnum(s, 0) == 3;
    assert SkipAlnum(s, 4) == 7;
    TestIsLanguage(s);
  }
}

=== FILE: js_text.dfy ===
/**
 Characters and string length as a JavaScript engine sees them.

 Dafny's `char` is a Unicode scalar value, while JavaScript strings are
 sequences of UTF-16 code units: a character outside the Basic Multilingual
 Plane ("astral") is one `char` here but two code units there. The sign-up
 form's length check and its email regular expression both work on code
 units, so the difference is written out below.
 */
module JsText {

  /** `[A-Za-z]` */
  predicate IsAsciiLetter(c: char) {
    ('A' <= c <= 'Z') || ('a' <= c <= 'z')
  }

  /** `[0-9]` */
  predicate IsAsciiDigit(c: char) {
    '0' <= c <= '9'
  }

  /** `[A-Za-z0-9]` */
  predicate IsAsciiAlnum(c: char) {
    IsAsciiLetter(c) || IsAsciiDigit(c)
  }

  /** The ECMAScript line terminators, which `.` does not match without the `s` flag. */
  predicate IsLineTerminator(c: char) {
    c == '\n' || c == '\r' || c == '\U{2028}' || c == '\U{2029}'
  }

  /** A character that UTF-16 encodes as a surrogate pair. */
  predicate IsAstral(c: char) {
    c as int > 0xFFFF
  }

  predicate AllAlnum(s: string) {
    forall i :: 0 <= i < |s| ==> IsAsciiAlnum(s[i])
  }

  predicate AllLetters(s: string) {
    forall i :: 0 <= i < |s| ==> IsAsciiLetter(s[i])
  }

  predicate NoAstral(s: string) {
    forall i :: 0 <= i < |s| ==> !IsAstral(s[i])
  }

  /** `s.length` in JavaScript: the number of UTF-16 code units of `s`. */
  function Utf16Length(s: string): (n: nat)
    ensures |s| <= n <= 2 * |s|
    ensures n == 0 <==> s == []
    ensures n == |s| <==> NoAstral(s)
  {
    if s == [] then 0
    else
      var rest := Utf16Length(s[1..]);
      assert NoAstral(s) <==> !IsAstral(s[0]) && NoAstral(s[1..]) by {
        if !IsAstral(s[0]) && NoAstral(s[1..]) {
          forall i | 0 <= i < |s| ensures !IsAstral(s[i]) {
            if i > 0 { assert s[i] == s[1..][i - 1]; }
          }
        }
      }
      (if IsAstral(s[0]) then 2 else 1) + rest
  }

  /**
   A string is shorter than two code units exactly when it is empty or is a
   single character of the Basic Multilingual Plane; one astral character
   already counts as two.
   */
  lemma ShorterThanTwo(s: string)
    ensures Utf16Length(s) < 2 <==> s == [] || (|s| == 1 && !IsAstral(s[0]))
  {
    if |s| >= 1 {
      assert s[1..] == [] <==> |s| == 1;
    }
  }
}

=== FILE: nickname_registry.dfy ===
/**
 The `userNickname` collection as the sign-up form sees it: claim documents
 keyed by account uid. The form's availability query is an equality query on
 the `nickname` field, and its claim is a point write under the new uid; the
 two are separate steps, and nothing makes the write conditional on the
 query.
 */
module NicknameRegistry {
  import opened JsText
  import opened SignUp

  /** The claim documents, by account uid. */
  type ClaimStore = map<string, Claim>

  /**
   The uids whose claim is for `nickname`: what the equality query returns.
   It finds nothing exactly when the nickname is free.
   */
  function Holders(store: ClaimStore, nickname: string): (ids: set<string>)
    ensures ids <= store.Keys
    ensures forall uid <- ids :: store[uid] == Claim(nickname)
    ensures forall uid <- store.Keys :: store[uid] == Claim(nickname) ==> uid in ids
    ensures ids == {} <==> !Taken(store, nickname)
  {
    var ids := set uid | uid in store && store[uid].nickname == nickname;
    assert Taken(store, nickname) ==> ids != {} by {
      if Taken(store, nickname) {
        var uid :| uid in store && store[uid].nickname == nickname;
        assert uid in ids;
      }
    }
    ids
  }

  /** Whether some account has claimed `nickname`. */
  ghost predicate Taken(store: ClaimStore, nickname: string) {
    exists uid :: uid in store && store[uid].nickname == nickname
  }

  /** The query outcome against an unchanging store. */
  function Lookup(store: ClaimStore, nickname: string): QueryOutcome {
    QueryDocs(Holders(store, nickname))
  }

  /** The keys the claim writes of a trace write to. */
  function ClaimKeys(trace: seq<Effect>): set<string> {
    set e | e in trace && e.SetClaim? && e.collection == ClaimCollection :: e.key
  }

  /** The store after the claim writes of a trace have landed, in order. */
  function ApplyClaims(store: ClaimStore, trace: seq<Effect>): (s: ClaimStore)
    ensures s.Keys == store.Keys + ClaimKeys(trace)
    decreases |trace|
  {
    if trace == [] then store
    else
      var next := match trace[0]
        case SetClaim(collection, key, claim) =>
          if collection == ClaimCollection then store[key := claim] else store
        case _ => store;
      assert trace == [trace[0]] + trace[1..];
      assert ClaimKeys(trace) == ClaimKeys([trace[0]]) + ClaimKeys(trace[1..]);
      ApplyClaims(next, trace[1..])
  }

  /**
   With a nickname long enough to be queried, the flag ends up set exactly
   when some account already holds the nickname.
   */
  lemma CheckReflectsStore(f: Form, store: ClaimStore)
    requires Utf16Length(f.nickname) >= 2
    ensures CheckNickname(f, Lookup(store, f.nickname)).form.duplicate <==> Taken(store, f.nickname)
  {
    var ids := Holders(store, f.nickname);
    if Taken(store, f.nickname) {
      var uid :| uid in store && store[uid].nickname == f.nickname;
      assert uid in ids;
    }
  }

  /**
   Checking twice against an unchanged store gives the same form and the
   same query and alert the second time.
   */
  lemma CheckIdempotent(f: Form, store: ClaimStore)
    ensures var first := CheckNickname(f, Lookup(store, f.nickname));
      var second := CheckNickname(first.form, Lookup(store, first.form.nickname));
      second.form == first.form && second.trace == first.trace
  {
    var first := CheckNickname(f, Lookup(store, f.nickname));
    assert first.form.nickname == f.nickname;
  }

  /**
   A completed sign-up claims its nickname under the new uid, so a later
   check of the same nickname finds it taken.
   */
  lemma SignUpClaims(f: Form, uid: string, store: ClaimStore)
    requires PassesGuards(f)
    ensures var after := ApplyClaims(store, RequestSignUp(f, Created(uid), ProfileUpdated).trace);
      && uid in after && after[uid] == Claim(f.nickname)
      && Taken(after, f.nickname)
  {
    var r := RequestSignUp(f, Created(uid), ProfileUpdated);
    var e :| e in r.trace && e.SetClaim?;
    ApplyOneClaim(store, r.trace, uid, Claim(f.nickname));
  }

  /** A trace whose claim writes all write one document leaves that document in the store. */
  lemma {:induction false} ApplyOneClaim(store: ClaimStore, trace: seq<Effect>, key: string, claim: Claim)
    requires SetClaim(ClaimCollection, key, claim) in trace
    requires forall e <- trace :: e.SetClaim? ==> e == SetClaim(ClaimCollection, key, claim)
    ensures ApplyClaims(store, trace) == store[key := claim]
    decreases |trace|
  {
    var rest := trace[1..];
    forall e <- rest ensures e.SetClaim? ==> e == SetClaim(ClaimCollection, key, claim) {
      assert e in trace;
    }
    if trace[0] == SetClaim(ClaimCollection, key, claim) {
      if SetClaim(ClaimCollection, key, claim) in rest {
        ApplyOneClaim(store[key := claim], rest, key, claim);
      } else {
        ApplyNoClaims(store[key := claim], rest);
      }
    } else {
      assert trace[0] in trace;
      assert SetClaim(ClaimCollection, key, claim) in rest;
      ApplyOneClaim(store, rest, key, claim);
    }
  }

  /** A trace without claim writes leaves the store as it was. */
  lemma {:induction false} ApplyNoClaims(store: ClaimStore, trace: seq<Effect>)
    requires forall e <- trace :: !e.SetClaim?
    ensures ApplyClaims(store, trace) == store
    decreases |trace|
  {
    if trace != [] {
      assert trace[0] in trace;
      forall e <- trace[1..] ensures !e.SetClaim? {
        assert e in trace;
      }
      ApplyNoClaims(store, trace[1..]);
    }
  }

  /**
   The gap between check and claim: two sign-ups with the same nickname,
   both checked against the same store before either claim lands, both go
   through, and the store ends with two claims for one nickname.
   */
  lemma CheckThenClaimGap(a: Form, b: Form, uidA: string, uidB: string, store: ClaimStore)
    requires a.nickname == b.nickname && Utf16Length(a.nickname) >= 2
    requires !Taken(store, a.nickname)
    requires uidA != uidB
    requires EmailPattern.InLanguage(a.email) && a.password == a.confirm
    requires EmailPattern.InLanguage(b.email) && b.password == b.confirm
    ensures var checkedA := CheckNickname(a, Lookup(store, a.nickname)).form;
      var checkedB := CheckNickname(b, Lookup(store, b.nickname)).form;
      var afterA := ApplyClaims(store, RequestSignUp(checkedA, Created(uidA), ProfileUpdated).trace);
      var afterB := ApplyClaims(afterA, RequestSignUp(checkedB, Created(uidB), ProfileUpdated).trace);
      && !checkedA.duplicate && !checkedB.duplicate
      && {uidA, uidB} <= Holders(afterB, a.nickname)
  {
    var checkedA := CheckedPasses(a, store);
    var checkedB := CheckedPasses(b, store);
    TwoSignUps(checkedA, checkedB, uidA, uidB, store);
  }

  /**
   Two sign-ups with the same nickname that both pass the guards leave both
   new accounts holding the nickname.
   */
  lemma TwoSignUps(fa: Form, fb: Form, uidA: string, uidB: string, store: ClaimStore)
    requires PassesGuards(fa) && PassesGuards(fb) && fa.nickname == fb.nickname
    requires uidA != uidB
    ensures var afterA := ApplyClaims(store, RequestSignUp(fa, Created(uidA), ProfileUpdated).trace);
      var afterB := ApplyClaims(afterA, RequestSignUp(fb, Created(uidB), ProfileUpdated).trace);
      {uidA, uidB} <= Holders(afterB, fa.nickname)
  {
    var afterA := ApplyClaims(store, RequestSignUp(fa, Created(uidA), ProfileUpdated).trace);
    var afterB := ApplyClaims(afterA, RequestSignUp(fb, Created(uidB), ProfileUpdated).trace);
    SignUpClaims(fa, uidA, store);
    SignUpClaims(fb, uidB, afterA);
    ClaimSurvives(fb, uidB, uidA, afterA);
    HoldersOfBoth(afterB, uidA, uidB, fa.nickname);
  }

  /** Two uids whose documents claim a nickname are both among its holders. */
  lemma HoldersOfBoth(store: ClaimStore, uidA: string, uidB: string, nickname: string)
    requires uidA in store && store[uidA] == Claim(nickname)
    requires uidB in store && store[uidB] == Claim(nickname)
    ensures {uidA, uidB} <= Holders(store, nickname)
  {
  }

  /**
   A form with an accepted email and matching passwords, checked against a
   store where its nickname is free, passes every guard of the sign-up
   button.
   */
  lemma CheckedPasses(f: Form, store: ClaimStore) returns (checked: Form)
    requires Utf16Length(f.nickname) >= 2 && !Taken(store, f.nickname)
    requires EmailPattern.InLanguage(f.email) && f.password == f.confirm
    ensures checked == CheckNickname(f, Lookup(store, f.nickname)).form
    ensures !checked.duplicate && checked.nickname == f.nickname && PassesGuards(checked)
  {
    CheckReflectsStore(f, store);
    checked := CheckNickname(f, Lookup(store, f.nickname)).form;
  }

  /** A completed sign-up leaves other accounts' claims as they were. */
  lemma ClaimSurvives(f: Form, uid: string, other: string, store: ClaimStore)
    requires other != uid && other in store
    ensures var after := ApplyClaims(store, RequestSignUp(f, Created(uid), ProfileUpdated).trace);
      other in after && after[other] == store[other]
  {
    var r := RequestSignUp(f, Created(uid), ProfileUpdated);
    ApplyClaimsKeeps(store, r.trace, other);
  }

  /** Claim writes under other keys leave a key's document as it was. */
  lemma {:induction false} ApplyClaimsKeeps(store: ClaimStore, trace: seq<Effect>, key: string)
    requires key in store
    requires forall e <- trace :: e.SetClaim? ==> e.key != key
    ensures key in ApplyClaims(store, trace) && ApplyClaims(store, trace)[key] == store[key]
    decreases |trace|
  {
    if trace != [] {
      var next := match trace[0]
        case SetClaim(collection, k, claim) =>
          if collection == ClaimCollection then store[k := claim] else store
        case _ => store;
      assert trace[0] in trace;
      forall e <- trace[1..] ensures e.SetClaim? ==> e.key != key {
        assert e in trace;
      }
      ApplyClaimsKeeps(next, trace[1..], key);
    }
  }
}

=== FILE: sign_up.dfy ===
/**
 The sign-up form (src/components/SignUp/SignUp.tsx) as a state machine.

 Every call into the identity provider or the document store is recorded as
 an `Effect` in a trace, and its outcome is a parameter of the step that
 issues it. A step's result is the form after every callback it starts has
 run, together with everything it issued, in the order it was issued:
 calls, alerts and navigation.
 */
module SignUp {
  import opened JsText
  import opened Common
  import EmailPattern

  /** The collection of nickname claims, one document per account, and the field the availability query filters on. */
  const ClaimCollection := "userNickname"
  const ClaimField := "nickname"

  /** The provider error codes the form recognises. */
  const EmailInUseCode := "auth/email-already-in-use"
  const InvalidEmailCode := "auth/invalid-email"
  const WeakPasswordCode := "auth/weak-password"

  /** Message classes of the field warnings; `Clear` is the empty warning. */
  datatype Warning =
    | Clear
    | EnterNickname
    | NicknameTooShort
    | EmailFormat
    | EmailInUse
    | PasswordTooShort
    | ConfirmMismatch

  /** Message classes of the alerts. */
  datatype Notice =
    | NicknameTaken
    | NicknameAvailable
    | NicknameNotChecked
    | EmailFormatNotice
    | EmailInUseNotice
    | PasswordTooShortNotice
    | SignUpDone
    | NicknameNotSet

  /** The body of a nickname claim document. */
  datatype Claim = Claim(nickname: string)

  datatype Effect =
    | QueryEqual(collection: string, field: string, value: string)
    | CreateAccount(email: string, password: string)
    | SetDisplayName(uid: string, displayName: string)
    | SetClaim(collection: string, key: string, claim: Claim)
    | Alert(notice: Notice)
    | Navigate(path: string)

  /** The component's state. `duplicate` blocks sign-up while set. */
  datatype Form = Form(
    loading: bool,
    duplicate: bool,
    nickname: string,
    email: string,
    password: string,
    confirm: string,
    nicknameWarning: Warning,
    emailWarning: Warning,
    passwordWarning: Warning,
    confirmWarning: Warning)

  datatype Step = Step(form: Form, trace: seq<Effect>)

  /** Outcome of the equality query: the ids of the matching documents, or a rejected promise. */
  datatype QueryOutcome = QueryDocs(ids: set<string>) | QueryRejected

  /** Outcome of account creation: the new account's uid, or the provider's error code. */
  datatype CreateOutcome = Created(uid: string) | CreateRejected(code: string)

  /** Outcome of the display-name update. */
  datatype ProfileOutcome = ProfileUpdated | ProfileRejected

  /** The user's actions on the form, each with the outcomes of the calls it makes. */
  datatype Event =
    | NicknameInput(value: string)
    | EmailInput(value: string)
    | PasswordInput(value: string)
    | ConfirmInput(value: string)
    | CheckPressed(lookup: QueryOutcome)
    | SignUpPressed(create: CreateOutcome, profile: ProfileOutcome)

  /**
   The state the component mounts with: every field empty, no warning, not
   loading, and the flag that blocks sign-up cleared.
   */
  function Initial(): (f: Form)
    ensures !f.loading && !f.duplicate
    ensures f.nickname == "" && f.email == "" && f.password == "" && f.confirm == ""
    ensures f.nicknameWarning == Clear && f.emailWarning == Clear
    ensures f.passwordWarning == Clear && f.confirmWarning == Clear
  {
    Form(false, false, "", "", "", "", Clear, Clear, Clear, Clear)
  }

  /** Whether the trace calls the identity provider. */
  predicate CallsProvider(t: seq<Effect>) {
    exists e <- t :: e.CreateAccount? || e.SetDisplayName?
  }

  /** The nickname input's change handler: any edit blocks sign-up again. */
  function EditNickname(f: Form, value: string): (g: Form)
    ensures g.nickname == value && g.duplicate
    ensures g.(nickname := f.nickname, duplicate := f.duplicate) == f
  {
    f.(nickname := value, duplicate := true)
  }

  /**
   The check button: `checkNickname` and, for a nickname of at least two
   UTF-16 code units, `checkNicknameDuplicate` with the query's outcome.
   A match sets the flag, alerts and stops; no match clears the flag; a
   rejected query leaves the form as it was.
   */
  function CheckNickname(f: Form, lookup: QueryOutcome): (r: Step)
    // below two code units: a warning and no query
    ensures Utf16Length(f.nickname) < 2 <==> r.trace == []
    ensures f.nickname == [] ==> r.form == f.(nicknameWarning := EnterNickname)
    ensures f.nickname != [] && Utf16Length(f.nickname) < 2 ==> r.form == f.(nicknameWarning := NicknameTooShort)
    // otherwise exactly one query, for the typed nickname, first
    ensures Utf16Length(f.nickname) >= 2 ==>
      && r.trace[0] == QueryEqual(ClaimCollection, ClaimField, f.nickname)
      && r.form.nicknameWarning == f.nicknameWarning
      && |r.trace| <= 2
      && (forall e <- r.trace[1..] :: e.Alert?)
    // the flag follows the query's result
    ensures Utf16Length(f.nickname) >= 2 && lookup.QueryDocs? ==> r.form.duplicate == (lookup.ids != {})
    ensures Alert(NicknameAvailable) in r.trace <==> Utf16Length(f.nickname) >= 2 && lookup == QueryDocs({})
    ensures Alert(NicknameTaken) in r.trace <==> Utf16Length(f.nickname) >= 2 && lookup.QueryDocs? && lookup.ids != {}
    ensures lookup.QueryRejected? ==> r.form.(nicknameWarning := f.nicknameWarning) == f
    // a match switches loading off; no match leaves it as it was; a rejected query issues only the query
    ensures Utf16Length(f.nickname) >= 2 && lookup.QueryDocs? ==> r.form.loading == (lookup.ids == {} && f.loading)
    ensures Utf16Length(f.nickname) >= 2 && lookup.QueryRejected? ==>
      r.trace == [QueryEqual(ClaimCollection, ClaimField, f.nickname)]
    // only the flag, the loading indicator and the nickname warning can change
    ensures r.form.(duplicate := f.duplicate, loading := f.loading, nicknameWarning := f.nicknameWarning) == f
    ensures !CallsProvider(r.trace)
  {
    if f.nickname == "" then
      Step(f.(nicknameWarning := EnterNickname), [])
    else if Utf16Length(f.nickname) < 2 then
      Step(f.(nicknameWarning := NicknameTooShort), [])
    else
      var query := QueryEqual(ClaimCollection, ClaimField, f.nickname);
      match lookup
      case QueryRejected => Step(f, [query])
      case QueryDocs(ids) =>
        if ids != {} then
          Step(f.(duplicate := true, loading := false), [query, Alert(NicknameTaken)])
        else
          Step(f.(duplicate := false), [query, Alert(NicknameAvailable)])
  }

  /** The three client-side guards, with the email pattern as the regular expression's language. */
  ghost predicate PassesGuards(f: Form) {
    && !f.duplicate
    && EmailPattern.InLanguage(f.email)
    && f.password == f.confirm
  }

  /**
   The catch handler of account creation: each recognised code sets its
   warning and alerts; any other code changes no warning.
   */
  function OnCreateFailed(f: Form, code: string): (r: Step)
    ensures !r.form.loading
    ensures code == EmailInUseCode ==> r.form.emailWarning == EmailInUse && r.trace == [Alert(EmailInUseNotice)]
    ensures code == InvalidEmailCode ==> r.form.emailWarning == EmailFormat && r.trace == [Alert(EmailFormatNotice)]
    ensures code == WeakPasswordCode ==>
      && r.form.emailWarning == Clear
      && r.form.passwordWarning == PasswordTooShort
      && r.trace == [Alert(PasswordTooShortNotice)]
    ensures code != WeakPasswordCode ==> r.form.passwordWarning == f.passwordWarning
    ensures code !in {EmailInUseCode, InvalidEmailCode, WeakPasswordCode} ==>
      r.trace == [] && r.form == f.(loading := false)
    ensures r.form.(loading := f.loading, emailWarning := f.emailWarning, passwordWarning := f.passwordWarning) == f
  {
    var g := f.(loading := false);
    if code == EmailInUseCode then
      Step(g.(emailWarning := EmailInUse), [Alert(EmailInUseNotice)])
    else if code == InvalidEmailCode then
      Step(g.(emailWarning := EmailFormat), [Alert(EmailFormatNotice)])
    else if code == WeakPasswordCode then
      Step(g.(emailWarning := Clear, passwordWarning := PasswordTooShort), [Alert(PasswordTooShortNotice)])
    else
      Step(g, [])
  }

  /**
   The success handler of account creation. The display-name update is
   issued and the user is sent home at once, without waiting for it; when
   it succeeds the email and password inputs are emptied and the claim
   document is written under the new uid, and when it fails no claim is
   written and the user is told the nickname was not set.
   */
  function OnCreated(f: Form, uid: string, profile: ProfileOutcome): (r: Step)
    ensures !r.form.loading
    ensures r.trace != [] && r.trace[0] == SetDisplayName(uid, f.nickname)
    ensures Navigate(Home) in r.trace
    ensures (exists e <- r.trace :: e.SetClaim?) <==> profile.ProfileUpdated?
    ensures forall e <- r.trace :: e.SetClaim? ==> e == SetClaim(ClaimCollection, uid, Claim(f.nickname))
    ensures Alert(SignUpDone) in r.trace <==> profile.ProfileUpdated?
    ensures Alert(NicknameNotSet) in r.trace <==> profile.ProfileRejected?
    ensures profile.ProfileUpdated? ==> r.form.email == "" && r.form.password == ""
    ensures profile.ProfileRejected? ==> r.form == f.(loading := false)
    ensures r.form.(loading := f.loading, email := f.email, password := f.password) == f
    ensures forall e <- r.trace :: !e.CreateAccount? && !e.QueryEqual?
    // nothing else is issued: the update, the navigation, then the claim and alert or the degraded alert
    ensures |r.trace| == if profile.ProfileUpdated? then 4 else 3
  {
    var issued := [SetDisplayName(uid, f.nickname), Navigate(Home)];
    match profile
    case ProfileUpdated =>
      var trace := issued + [SetClaim(ClaimCollection, uid, Claim(f.nickname)), Alert(SignUpDone)];
      assert trace[2].SetClaim?;
      Step(f.(loading := false, email := "", password := ""), trace)
    case ProfileRejected =>
      Step(f.(loading := false), issued + [Alert(NicknameNotSet)])
  }

  /**
   The sign-up button: the guards in their order (nickname flag, email
   pattern, password confirmation), then account creation with the
   provider's outcome.
   */
  function RequestSignUp(f: Form, create: CreateOutcome, profile: ProfileOutcome): (r: Step)
    ensures !r.form.loading
    ensures CallsProvider(r.trace) <==> PassesGuards(f)
    ensures PassesGuards(f) ==> r.trace[0] == CreateAccount(f.email, f.password)
    ensures PassesGuards(f) ==> forall e <- r.trace[1..] :: !e.CreateAccount?
    // first guard: the flag
    ensures f.duplicate ==>
      r.trace == [Alert(NicknameNotChecked)] && r.form == f.(loading := false)
    // second guard: the email pattern
    ensures !f.duplicate && !EmailPattern.InLanguage(f.email) ==>
      r.trace == [Alert(EmailFormatNotice)] && r.form == f.(emailWarning := EmailFormat, loading := false)
    // third guard: the confirmation
    ensures !f.duplicate && EmailPattern.InLanguage(f.email) && f.password != f.confirm ==>
      r.trace == [] && r.form == f.(passwordWarning := Clear, confirmWarning := ConfirmMismatch, loading := false)
    // the claim: only after creation and the display-name update, under the new uid, for the typed nickname
    ensures (exists e <- r.trace :: e.SetClaim?) <==> PassesGuards(f) && create.Created? && profile.ProfileUpdated?
    ensures forall e <- r.trace :: e.SetClaim? ==>
      create.Created? && e == SetClaim(ClaimCollection, create.uid, Claim(f.nickname))
    // availability is never queried again
    ensures forall e <- r.trace :: !e.QueryEqual?
    ensures r.form.nickname == f.nickname && r.form.duplicate == f.duplicate
  {
    EmailPattern.TestIsLanguage(f.email);
    if f.duplicate then
      Step(f.(loading := false), [Alert(NicknameNotChecked)])
    else if !EmailPattern.Test(f.email) then
      Step(f.(emailWarning := EmailFormat, loading := false), [Alert(EmailFormatNotice)])
    else if f.password != f.confirm then
      Step(f.(passwordWarning := Clear, confirmWarning := ConfirmMismatch, loading := false), [])
    else
      var call := CreateAccount(f.email, f.password);
      var after := match create
        case Created(uid) => OnCreated(f, uid, profile)
        case CreateRejected(code) => OnCreateFailed(f, code);
      assert call in [call] + after.trace;
      Step(after.form, [call] + after.trace)
  }

  /**
   One user action. Typing only stores the value (a nickname edit also
   blocks sign-up again) and issues nothing; only the check button queries,
   and only the sign-up button calls the provider.
   */
  function Handle(f: Form, e: Event): (r: Step)
    ensures e.NicknameInput? || e.EmailInput? || e.PasswordInput? || e.ConfirmInput? ==> r.trace == []
    ensures e.NicknameInput? ==> r.form == EditNickname(f, e.value)
    ensures e.EmailInput? ==> r.form == f.(email := e.value)
    ensures e.PasswordInput? ==> r.form == f.(password := e.value)
    ensures e.ConfirmInput? ==> r.form == f.(confirm := e.value)
    ensures (exists q <- r.trace :: q.QueryEqual?) ==> e.CheckPressed?
    ensures CallsProvider(r.trace) ==> e.SignUpPressed?
  {
    match e
    case NicknameInput(v) => Step(EditNickname(f, v), [])
    case EmailInput(v) => Step(f.(email := v), [])
    case PasswordInput(v) => Step(f.(password := v), [])
    case ConfirmInput(v) => Step(f.(confirm := v), [])
    case CheckPressed(lookup) => CheckNickname(f, lookup)
    case SignUpPressed(create, profile) => RequestSignUp(f, create, profile)
  }

  /** A session of user actions, the traces concatenated. */
  function Run(f: Form, es: seq<Event>): Step
    decreases |es|
  {
    if es == [] then Step(f, [])
    else
      var first := Handle(f, es[0]);
      var rest := Run(first.form, es[1..]);
      Step(rest.form, first.trace + rest.trace)
  }

  /** A check whose query finds no match, the only action that can unblock sign-up. */
  predicate ClearsFlag(e: Event) {
    e.CheckPressed? && e.lookup == QueryDocs({})
  }

  /**
   While sign-up is blocked, it stays blocked, and no account is created,
   until a check finds no match.
   */
  lemma {:induction false} BlockedUntilClearingCheck(f: Form, es: seq<Event>)
    requires f.duplicate
    requires forall i :: 0 <= i < |es| ==> !ClearsFlag(es[i])
    ensures Run(f, es).form.duplicate
    ensures !CallsProvider(Run(f, es).trace)
    decreases |es|
  {
    if es != [] {
      var first := Handle(f, es[0]);
      assert first.form.duplicate && !CallsProvider(first.trace) by {
        match es[0]
        case CheckPressed(lookup) =>
          assert lookup != QueryDocs({}) by { assert !ClearsFlag(es[0]); }
        case _ =>
      }
      forall i | 0 <= i < |es[1..]| ensures !ClearsFlag(es[1..][i]) {
        assert es[1..][i] == es[i + 1];
      }
      BlockedUntilClearingCheck(first.form, es[1..]);
      var rest := Run(first.form, es[1..]);
      assert Run(f, es).trace == first.trace + rest.trace;
    }
  }

  /** After any nickname edit, no account is created until a check finds no match. */
  lemma EditBlocksUntilClearingCheck(f: Form, value: string, es: seq<Event>)
    requires forall i :: 0 <= i < |es| ==> !ClearsFlag(es[i])
    ensures !CallsProvider(Run(f, [NicknameInput(value)] + es).trace)
  {
    var g := EditNickname(f, value);
    BlockedUntilClearingCheck(g, es);
    assert ([NicknameInput(value)] + es)[1..] == es;
  }

  /**
   The success path in order: account creation, then the display-name
   update; the claim is written after the update, and the navigation home
   is issued before the claim write because it does not wait for the update.
   */
  lemma SuccessOrder(f: Form, uid: string)
    requires PassesGuards(f)
    ensures var r := RequestSignUp(f, Created(uid), ProfileUpdated);
      && Precedes(r.trace, CreateAccount(f.email, f.password), SetDisplayName(uid, f.nickname))
      && Precedes(r.trace, SetDisplayName(uid, f.nickname), SetClaim(ClaimCollection, uid, Claim(f.nickname)))
      && Precedes(r.trace, Navigate(Home), SetClaim(ClaimCollection, uid, Claim(f.nickname)))
      && Alert(SignUpDone) in r.trace
      && r.trace == [CreateAccount(f.email, f.password), SetDisplayName(uid, f.nickname), Navigate(Home),
                     SetClaim(ClaimCollection, uid, Claim(f.nickname)), Alert(SignUpDone)]
  {
    var r := RequestSignUp(f, Created(uid), ProfileUpdated);
    var claim := SetClaim(ClaimCollection, uid, Claim(f.nickname));
    var t := [CreateAccount(f.email, f.password), SetDisplayName(uid, f.nickname), Navigate(Home), claim, Alert(SignUpDone)];
    assert r.trace == t by {
      assert r.trace == [CreateAccount(f.email, f.password)] + OnCreated(f, uid, ProfileUpdated).trace;
    }
    assert t[0] == CreateAccount(f.email, f.password) && t[1] == SetDisplayName(uid, f.nickname);
    assert t[2] == Navigate(Home) && t[3] == claim;
  }

  /**
   When the display-name update fails the account still exists and the user
   is still sent home, but no claim is written and the degraded outcome is
   reported.
   */
  lemma DegradedSuccess(f: Form, uid: string)
    requires PassesGuards(f)
    ensures var r := RequestSignUp(f, Created(uid), ProfileRejected);
      && CreateAccount(f.email, f.password) in r.trace
      && Navigate(Home) in r.trace
      && (forall e <- r.trace :: !e.SetClaim?)
      && Alert(NicknameNotSet) in r.trace
      && Alert(SignUpDone) !in r.trace
      && r.trace == [CreateAccount(f.email, f.password), SetDisplayName(uid, f.nickname), Navigate(Home),
                     Alert(NicknameNotSet)]
  {
    var r := RequestSignUp(f, Created(uid), ProfileRejected);
    assert r.trace[0] == CreateAccount(f.email, f.password);
    assert r.trace[1..] == OnCreated(f, uid, ProfileRejected).trace;
  }

  /** A rejected account creation writes nothing, sends nobody home and leaves loading off. */
  lemma CreateRejectedStops(f: Form, code: string, profile: ProfileOutcome)
    requires PassesGuards(f)
    ensures var r := RequestSignUp(f, CreateRejected(code), profile);
      && r.trace[0] == CreateAccount(f.email, f.password)
      && (forall e <- r.trace[1..] :: e.Alert?)
      && Navigate(Home) !in r.trace
      && !r.form.loading
  {
    var r := RequestSignUp(f, CreateRejected(code), profile);
    assert r.trace[1..] == OnCreateFailed(f, code).trace;
  }

  /** A single action run alone is that action's step. */
  lemma RunOne(f: Form, e: Event)
    ensures Run(f, [e]) == Handle(f, e)
  {
    assert [e][1..] == [];
  }

  /**
   A user who types a nickname, has it confirmed available, types an email
   the pattern accepts and the same password twice, and signs up, gets the
   account created and named, and the nickname claimed under the new uid.
   */
  lemma CheckedSignUp(f: Form, nickname: string, email: string, password: string, uid: string)
    requires Utf16Length(nickname) >= 2
    requires EmailPattern.InLanguage(email)
    ensures var r := Run(f, [
        NicknameInput(nickname),
        CheckPressed(QueryDocs({})),
        EmailInput(email),
        PasswordInput(password),
        ConfirmInput(password),
        SignUpPressed(Created(uid), ProfileUpdated)]);
      && CreateAccount(email, password) in r.trace
      && SetDisplayName(uid, nickname) in r.trace
      && SetClaim(ClaimCollection, uid, Claim(nickname)) in r.trace
  {
    var f5 := CheckNickname(EditNickname(f, nickname), QueryDocs({})).form.(email := email, password := password, confirm := password);
    CheckedSignUpTrace(f, nickname, email, password, uid);
    assert PassesGuards(f5);
    SuccessOrder(f5, uid);
  }

  /** The trace of that session: the check's trace, then the sign-up's. */
  lemma CheckedSignUpTrace(f: Form, nickname: string, email: string, password: string, uid: string)
    ensures var f5 := CheckNickname(EditNickname(f, nickname), QueryDocs({})).form.(email := email, password := password, confirm := password);
      Run(f, [
        NicknameInput(nickname),
        CheckPressed(QueryDocs({})),
        EmailInput(email),
        PasswordInput(password),
        ConfirmInput(password),
        SignUpPressed(Created(uid), ProfileUpdated)]).trace
      == CheckNickname(EditNickname(f, nickname), QueryDocs({})).trace + RequestSignUp(f5, Created(uid), ProfileUpdated).trace
  {
    var f1 := EditNickname(f, nickname);
    var check := CheckNickname(f1, QueryDocs({}));
    var f2 := check.form;
    var f5 := f2.(email := email, password := password, confirm := password);
    var s2 := [EmailInput(email), PasswordInput(password), ConfirmInput(password),
               SignUpPressed(Created(uid), ProfileUpdated)];
    var s1 := [CheckPressed(QueryDocs({}))] + s2;
    var s0 := [NicknameInput(nickname)] + s1;
    FillAndSubmit(f2, email, password, uid);
    HandleCheck(f1, QueryDocs({}));
    RunPrepend(f1, CheckPressed(QueryDocs({})), s2);
    RunPrepend(f, NicknameInput(nickname), s1);
    assert s0 == [
        NicknameInput(nickname),
        CheckPressed(QueryDocs({})),
        EmailInput(email),
        PasswordInput(password),
        ConfirmInput(password),
        SignUpPressed(Created(uid), ProfileUpdated)];
  }

  /** Filling in the email and both passwords, then signing up, issues only the sign-up's calls. */
  lemma FillAndSubmit(f: Form, email: string, password: string, uid: string)
    ensures var filled := f.(email := email, password := password, confirm := password);
      Run(f, [EmailInput(email), PasswordInput(password), ConfirmInput(password),
              SignUpPressed(Created(uid), ProfileUpdated)]).trace
      == RequestSignUp(filled, Created(uid), ProfileUpdated).trace
  {
    var f5 := f.(email := email, password := password, confirm := password);
    var submit := [SignUpPressed(Created(uid), ProfileUpdated)];
    RunOne(f5, submit[0]);
    HandleSubmit(f5, Created(uid), ProfileUpdated);
    FillIn(f, email, password, submit);
    assert [EmailInput(email), PasswordInput(password), ConfirmInput(password)] + submit
      == [EmailInput(email), PasswordInput(password), ConfirmInput(password),
          SignUpPressed(Created(uid), ProfileUpdated)];
  }

  /** Typing the email and both passwords only stores them. */
  lemma FillIn(f: Form, email: string, password: string, rest: seq<Event>)
    ensures var filled := f.(email := email, password := password, confirm := password);
      Run(f, [EmailInput(email), PasswordInput(password), ConfirmInput(password)] + rest)
      == Run(filled, rest)
  {
    var f3 := f.(email := email);
    var f4 := f3.(password := password);
    var f5 := f4.(confirm := password);
    var s4 := [ConfirmInput(password)] + rest;
    var s3 := [PasswordInput(password)] + s4;
    assert Handle(f4, ConfirmInput(password)) == Step(f5, []);
    RunPrepend(f4, ConfirmInput(password), rest);
    assert Handle(f3, PasswordInput(password)) == Step(f4, []);
    RunPrepend(f3, PasswordInput(password), s4);
    assert Handle(f, EmailInput(email)) == Step(f3, []);
    RunPrepend(f, EmailInput(email), s3);
    assert [EmailInput(email), PasswordInput(password), ConfirmInput(password)] + rest == [EmailInput(email)] + s3;
  }

  /** Pressing the check button runs the check. */
  lemma HandleCheck(f: Form, lookup: QueryOutcome)
    ensures Handle(f, CheckPressed(lookup)) == CheckNickname(f, lookup)
  {
  }

  /** Pressing the sign-up button runs the sign-up. */
  lemma HandleSubmit(f: Form, create: CreateOutcome, profile: ProfileOutcome)
    ensures Handle(f, SignUpPressed(create, profile)) == RequestSignUp(f, create, profile)
  {
  }

  /** Running a session that starts with `e` is handling `e`, then running the rest. */
  lemma RunPrepend(f: Form, e: Event, es: seq<Event>)
    ensures Run(f, [e] + es).form == Run(Handle(f, e).form, es).form
    ensures Run(f, [e] + es).trace == Handle(f, e).trace + Run(Handle(f, e).form, es).trace
  {
    assert ([e] + es)[1..] == es;
  }

  /**
   The sign-up scenario with the nickname "fluffy", the email
   "abc1234@abc.com" and the password "secret1".
   */
  lemma FluffyScenario(f: Form, uid: string)
    ensures var r := Run(f, [
        NicknameInput("fluffy"),
        CheckPressed(QueryDocs({})),
        EmailInput("abc1234@abc.com"),
        PasswordInput("secret1"),
        ConfirmInput("secret1"),
        SignUpPressed(Created(uid), ProfileUpdated)]);
      && CreateAccount("abc1234@abc.com", "secret1") in r.trace
      && SetDisplayName(uid, "fluffy") in r.trace
      && SetClaim(ClaimCollection, uid, Claim("fluffy")) in r.trace
  {
    EmailPattern.AcceptsPlaceholder();
    CheckedSignUp(f, "fluffy", "abc1234@abc.com", "secret1", uid);
  }

  /**
   As written: the flag starts cleared, so on a freshly mounted form whose
   nickname was never checked, not even typed, sign-up passes the first
   guard, and the account is created with an empty display name and an
   empty nickname claim.
   */
  lemma UncheckedSignUp(email: string, password: string, uid: string)
    requires EmailPattern.InLanguage(email)
    ensures var r := Run(Initial(), [
        EmailInput(email),
        PasswordInput(password),
        ConfirmInput(password),
        SignUpPressed(Created(uid), ProfileUpdated)]);
      && CreateAccount(email, password) in r.trace
      && SetClaim(ClaimCollection, uid, Claim("")) in r.trace
  {
    var f3 := Initial().(email := email, password := password, confirm := password);
    FillAndSubmit(Initial(), email, password, uid);
    assert PassesGuards(f3);
    SuccessOrder(f3, uid);
  }

  /** The unchecked sign-up with the placeholder address. */
  lemma UncheckedSignUpExample(uid: string)
    ensures var r := Run(Initial(), [
        EmailInput("abc1234@abc.com"),
        PasswordInput("secret1"),
        ConfirmInput("secret1"),
        SignUpPressed(Created(uid), ProfileUpdated)]);
      && SetClaim(ClaimCollection, uid, Claim("")) in r.trace
  {
    EmailPattern.AcceptsPlaceholder();
    UncheckedSignUp("abc1234@abc.com", "secret1", uid);
  }

  /** The evidently intended initial state: the nickname counts as unchecked until a check clears it. */
  function IntendedInitial(): (f: Form)
    ensures f.duplicate
    ensures f.(duplicate := false) == Initial()
  {
    Initial().(duplicate := true)
  }

  /** From the intended initial state no account is created before a check that finds no match. */
  lemma IntendedInitialBlocks(es: seq<Event>)
    requires forall i :: 0 <= i < |es| ==> !ClearsFlag(es[i])
    ensures !CallsProvider(Run(IntendedInitial(), es).trace)
  {
    BlockedUntilClearingCheck(IntendedInitial(), es);
  }
}

=== FILE: writing.dfy ===
/**
 The writing page (src/pages/Writing/Writing.tsx): publishing a post with an
 optional image, and the session guard the page installs when it mounts.

 As in the sign-up model, every storage and database call is an `Effect` in
 a trace and its outcome is a parameter; the post id and the creation time,
 which the page draws from `uuidv4` and the clock, are parameters too.
 */
module Writing {
  import opened Common

  const PostCollection := "freeboard"
  const CommentCollection := "comment"

  datatype Warning = Clear | NoContent

  /** Message classes of the alerts. */
  datatype Notice = Posted | PostFailed | WrongAccess

  /** The signed-in user's id, nickname and avatar as the page's store holds them. */
  datatype Session = Session(userId: string, userNickname: string, userImage: string)

  /** A `freeboard` document. */
  datatype Post = Post(
    postId: string,
    createdTime: string,
    userId: string,
    userNickname: string,
    userImage: string,
    contentImage: string,
    content: string)

  /** A document body: a post, or a post's comment list (comment contents are not part of this model). */
  datatype Doc = PostDoc(post: Post) | CommentList(comments: seq<string>)

  datatype Effect =
    | UploadBlob(key: string, dataUrl: string)
    | ResolveUrl(key: string)
    | SetDoc(collection: string, key: string, doc: Doc)
    | ObserveSession
    | Alert(notice: Notice)
    | Navigate(path: string)

  /** The page's state: the attachment as a data URL ("" for none) and the typed text. */
  datatype Page = Page(loading: bool, attachment: string, content: string, contentWarning: Warning)

  datatype Step = Step(page: Page, trace: seq<Effect>)

  /** Outcome of an awaited or chained call that either resolves or rejects. */
  datatype Outcome = Done | Failed

  /** Outcome of resolving a download URL. */
  datatype UrlOutcome = Url(url: string) | UrlFailed

  /** What `onAuthStateChanged` delivers. */
  datatype SessionEvent = SignedIn(uid: string) | SignedOut

  /** Whether an effect addresses nothing but `key`, as a storage object or a document id. */
  predicate KeyedBy(e: Effect, key: string) {
    match e
    case UploadBlob(k, _) => k == key
    case ResolveUrl(k) => k == key
    case SetDoc(_, k, _) => k == key
    case _ => true
  }

  predicate TouchesStorage(e: Effect) {
    e.UploadBlob? || e.ResolveUrl?
  }

  predicate WritesPost(e: Effect) {
    e.SetDoc? && e.collection == PostCollection
  }

  predicate WritesComments(e: Effect) {
    e.SetDoc? && e.collection == CommentCollection
  }

  /** Whether a submission gets as far as writing the post: text typed, and any image stored and resolved. */
  predicate ReachesPostWrite(p: Page, upload: Outcome, resolved: UrlOutcome) {
    p.content != "" && (p.attachment == "" || (upload.Done? && resolved.Url?))
  }

  /** The post write and what follows it: the comment list, the alert and the way home. */
  function WritePost(p: Page, post: Post, write: Outcome): (r: Step)
    ensures r.trace != [] && r.trace[0] == SetDoc(PostCollection, post.postId, PostDoc(post))
    ensures !r.page.loading
    ensures (exists e <- r.trace :: WritesComments(e)) <==> write.Done?
    ensures forall e <- r.trace :: WritesComments(e) ==> e == SetDoc(CommentCollection, post.postId, CommentList([]))
    ensures Alert(Posted) in r.trace <==> write.Done?
    ensures Navigate(Home) in r.trace <==> write.Done?
    ensures Alert(PostFailed) in r.trace <==> write.Failed?
    ensures forall e <- r.trace :: !TouchesStorage(e)
    ensures forall e <- r.trace :: KeyedBy(e, post.postId)
    ensures forall e <- r.trace :: WritesPost(e) ==> e.doc == PostDoc(post)
    // nothing else is issued: post, comment list, alert and navigation, or post and the failure alert
    ensures |r.trace| == if write.Done? then 4 else 2
    ensures r.page.(loading := p.loading) == p
  {
    var issued := [SetDoc(PostCollection, post.postId, PostDoc(post))];
    match write
    case Done =>
      var trace := issued + [SetDoc(CommentCollection, post.postId, CommentList([])), Alert(Posted), Navigate(Home)];
      assert WritesComments(trace[1]);
      Step(p.(loading := false), trace)
    case Failed =>
      Step(p.(loading := false), issued + [Alert(PostFailed)])
  }

  /** The post a submission writes, given the image URL it stores. */
  function NewPost(p: Page, session: Session, postId: string, createdTime: string, url: string): Post {
    Post(postId, createdTime, session.userId, session.userNickname, session.userImage, url, p.content)
  }

  /**
   The attachment branch of `addPost`: the upload under the post id, then
   the URL for the same key, then the post with that URL. A rejected upload
   or URL ends the submission with nothing written.
   */
  function UploadThenWrite(p: Page, session: Session, postId: string, createdTime: string,
                           upload: Outcome, resolved: UrlOutcome, write: Outcome): (r: Step)
    ensures |r.trace| >= 1 && r.trace[0] == UploadBlob(postId, p.attachment)
    ensures forall e <- r.trace :: KeyedBy(e, postId)
    ensures forall e <- r.trace :: WritesPost(e) ==>
      resolved.Url? && e.doc == PostDoc(NewPost(p, session, postId, createdTime, resolved.url))
    ensures (exists e <- r.trace :: e.ResolveUrl?) <==> upload.Done?
    ensures upload.Done? ==> |r.trace| >= 2 && r.trace[1] == ResolveUrl(postId)
    ensures !(upload.Done? && resolved.Url?) ==> r.page == p && forall e <- r.trace :: TouchesStorage(e)
    ensures upload.Done? && resolved.Url? ==>
      r == var w := WritePost(p, NewPost(p, session, postId, createdTime, resolved.url), write);
           Step(w.page, [UploadBlob(postId, p.attachment), ResolveUrl(postId)] + w.trace)
  {
    var stored := [UploadBlob(postId, p.attachment)];
    match upload
    case Failed =>
      Step(p, stored)
    case Done =>
      var asked := stored + [ResolveUrl(postId)];
      match resolved
      case UrlFailed =>
        assert asked[1].ResolveUrl?;
        Step(p, asked)
      case Url(url) =>
        var w := WritePost(p, NewPost(p, session, postId, createdTime, url), write);
        var trace := asked + w.trace;
        assert trace[1].ResolveUrl?;
        Step(w.page, trace)
  }

  /**
   The submit button, `addPost`. The post id is drawn before the text is
   looked at; an empty text sets the warning and leaves the loading
   indicator on. Otherwise an attachment is uploaded under the post id and
   its download URL resolved, and the post is written under the post id; a
   rejected upload or URL ends the submission there, with loading still on.
   */
  function AddPost(p: Page, session: Session, postId: string, createdTime: string,
                   upload: Outcome, resolved: UrlOutcome, write: Outcome): (r: Step)
    // empty text: a warning, nothing issued, loading left on
    ensures p.content == "" ==>
      r.trace == [] && r.page == p.(loading := true, contentWarning := NoContent)
    // storage is touched exactly when there is text and an attachment
    ensures (exists e <- r.trace :: e.UploadBlob?) <==> p.content != "" && p.attachment != ""
    ensures p.content != "" && p.attachment != "" ==> r.trace[0] == UploadBlob(postId, p.attachment)
    ensures (exists e <- r.trace :: e.ResolveUrl?) <==> p.content != "" && p.attachment != "" && upload.Done?
    // loading ends off exactly when the post write was issued
    ensures r.page.loading <==> !ReachesPostWrite(p, upload, resolved)
    // with text, only the loading indicator changes: an earlier warning stays
    ensures p.content != "" ==> r.page.(loading := p.loading) == p
  {
    var started := p.(loading := true);
    if p.content == "" then
      Step(started.(contentWarning := NoContent), [])
    else if p.attachment != "" then
      var r := UploadThenWrite(started, session, postId, createdTime, upload, resolved, write);
      assert r.trace[0] in r.trace;
      r
    else
      var w := WritePost(started, NewPost(started, session, postId, createdTime, ""), write);
      assert forall e <- w.trace :: !TouchesStorage(e);
      w
  }

  /**
   Everything a submission writes is addressed by its one post id, and the
   post it writes carries the session snapshot, the typed text and the
   stored image URL: the resolved one, or "" without an attachment.
   */
  lemma PostContents(p: Page, session: Session, postId: string, createdTime: string,
                     upload: Outcome, resolved: UrlOutcome, write: Outcome)
    ensures var r := AddPost(p, session, postId, createdTime, upload, resolved, write);
      && (forall e <- r.trace :: KeyedBy(e, postId))
      && (forall e <- r.trace :: WritesPost(e) ==>
           && e.doc.PostDoc?
           && e.doc.post.postId == postId
           && e.doc.post.createdTime == createdTime
           && e.doc.post.userId == session.userId
           && e.doc.post.userNickname == session.userNickname
           && e.doc.post.userImage == session.userImage
           && e.doc.post.content == p.content
           && e.doc.post.contentImage == (if p.attachment == "" then "" else resolved.url))
  {
    var started := p.(loading := true);
    if p.content != "" && p.attachment != "" {
      assert AddPost(p, session, postId, createdTime, upload, resolved, write)
        == UploadThenWrite(started, session, postId, createdTime, upload, resolved, write);
    }
  }

  /**
   The post is written exactly when the submission gets that far; its empty
   comment list, the success alert and the way home follow exactly when that
   write succeeds, and the failure alert exactly when it fails.
   */
  lemma WriteOrder(p: Page, session: Session, postId: string, createdTime: string,
                   upload: Outcome, resolved: UrlOutcome, write: Outcome)
    ensures var r := AddPost(p, session, postId, createdTime, upload, resolved, write);
      && ((exists e <- r.trace :: WritesPost(e)) <==> ReachesPostWrite(p, upload, resolved))
      && ((exists e <- r.trace :: WritesComments(e)) <==> ReachesPostWrite(p, upload, resolved) && write.Done?)
      && (forall e <- r.trace :: WritesComments(e) ==> e.doc == CommentList([]))
      && (Alert(Posted) in r.trace <==> ReachesPostWrite(p, upload, resolved) && write.Done?)
      && (Navigate(Home) in r.trace <==> ReachesPostWrite(p, upload, resolved) && write.Done?)
      && (Alert(PostFailed) in r.trace <==> ReachesPostWrite(p, upload, resolved) && write.Failed?)
  {
    var started := p.(loading := true);
    var r := AddPost(p, session, postId, createdTime, upload, resolved, write);
    if p.content != "" && p.attachment != "" {
      assert r == UploadThenWrite(started, session, postId, createdTime, upload, resolved, write);
      if upload.Done? && resolved.Url? {
        UploadedWriteOrder(started, session, postId, createdTime, resolved.url, write);
      } else {
        assert forall e <- r.trace :: TouchesStorage(e);
      }
    } else if p.content != "" {
      var w := WritePost(started, NewPost(started, session, postId, createdTime, ""), write);
      assert r == w;
      assert WritesPost(w.trace[0]);
    }
  }

  /** After a successful upload and URL, the writes follow as without an attachment. */
  lemma UploadedWriteOrder(started: Page, session: Session, postId: string, createdTime: string,
                           url: string, write: Outcome)
    requires started.attachment != ""
    ensures var r := UploadThenWrite(started, session, postId, createdTime, Done, Url(url), write);
      && (exists e <- r.trace :: WritesPost(e))
      && ((exists e <- r.trace :: WritesComments(e)) <==> write.Done?)
      && (forall e <- r.trace :: WritesComments(e) ==> e.doc == CommentList([]))
      && (Alert(Posted) in r.trace <==> write.Done?)
      && (Navigate(Home) in r.trace <==> write.Done?)
      && (Alert(PostFailed) in r.trace <==> write.Failed?)
  {
    var r := UploadThenWrite(started, session, postId, createdTime, Done, Url(url), write);
    var w := WritePost(started, NewPost(started, session, postId, createdTime, url), write);
    var head := [UploadBlob(postId, started.attachment), ResolveUrl(postId)];
    assert r.trace == head + w.trace;
    assert r.trace[2] == w.trace[0];
    assert WritesPost(r.trace[2]);
    forall e <- r.trace ensures e in head || e in w.trace {
    }
  }

  /**
   With an attachment and every call succeeding, the calls are issued in
   exactly this order: upload, URL, post, comment list; the post stores the
   resolved URL.
   */
  lemma AttachmentOrder(p: Page, session: Session, postId: string, createdTime: string, url: string)
    requires p.content != "" && p.attachment != ""
    ensures var r := AddPost(p, session, postId, createdTime, Done, Url(url), Done);
      var post := Post(postId, createdTime, session.userId, session.userNickname, session.userImage, url, p.content);
      && r.trace[..4] == [
        UploadBlob(postId, p.attachment),
        ResolveUrl(postId),
        SetDoc(PostCollection, postId, PostDoc(post)),
        SetDoc(CommentCollection, postId, CommentList([]))]
      && Precedes(r.trace, UploadBlob(postId, p.attachment), ResolveUrl(postId))
      && Precedes(r.trace, ResolveUrl(postId), SetDoc(PostCollection, postId, PostDoc(post)))
      && Precedes(r.trace, SetDoc(PostCollection, postId, PostDoc(post)), SetDoc(CommentCollection, postId, CommentList([])))
  {
    var r := AddPost(p, session, postId, createdTime, Done, Url(url), Done);
    var post := Post(postId, createdTime, session.userId, session.userNickname, session.userImage, url, p.content);
    var w := WritePost(p.(loading := true), post, Done);
    assert r.trace == [UploadBlob(postId, p.attachment), ResolveUrl(postId)] + w.trace;
    assert r.trace[1] == ResolveUrl(postId);
    assert r.trace[2] == SetDoc(PostCollection, postId, PostDoc(post));
    assert r.trace[3] == SetDoc(CommentCollection, postId, CommentList([]));
  }

  /**
   The text "hello" with no attachment: the post is written with an empty
   image URL, then its empty comment list, and storage is never called.
   */
  lemma HelloWithoutAttachment(p: Page, session: Session, postId: string, createdTime: string,
                               upload: Outcome, resolved: UrlOutcome)
    requires p.content == "hello" && p.attachment == ""
    ensures var r := AddPost(p, session, postId, createdTime, upload, resolved, Done);
      && (forall e <- r.trace :: !TouchesStorage(e))
      && SetDoc(PostCollection, postId, PostDoc(Post(postId, createdTime, session.userId, session.userNickname, session.userImage, "", "hello"))) in r.trace
      && SetDoc(CommentCollection, postId, CommentList([])) in r.trace
  {
    var r := AddPost(p, session, postId, createdTime, upload, resolved, Done);
    assert r.trace[1] == SetDoc(CommentCollection, postId, CommentList([]));
  }

  /** A rejected upload or URL resolution issues no document write. */
  lemma StorageFailureWritesNothing(p: Page, session: Session, postId: string, createdTime: string,
                                    upload: Outcome, resolved: UrlOutcome, write: Outcome)
    requires p.content != "" && p.attachment != ""
    requires upload.Failed? || resolved.UrlFailed?
    ensures var r := AddPost(p, session, postId, createdTime, upload, resolved, write);
      && (forall e <- r.trace :: !e.SetDoc?)
      && r.page.loading
  {
    var r := AddPost(p, session, postId, createdTime, upload, resolved, write);
    assert r.trace == [UploadBlob(postId, p.attachment)] || r.trace == [UploadBlob(postId, p.attachment), ResolveUrl(postId)];
  }

  /** The effect hook: loading is switched on and the session listener registered. */
  function MountGuard(p: Page): (r: Step)
    ensures r.page.loading
    ensures r.trace == [ObserveSession]
    ensures r.page.(loading := p.loading) == p
  {
    Step(p.(loading := true), [ObserveSession])
  }

  /**
   The session listener: a signed-out event alerts and sends the user home;
   every event switches loading off.
   */
  function OnSessionEvent(p: Page, event: SessionEvent): (r: Step)
    ensures !r.page.loading
    ensures Navigate(Home) in r.trace <==> event.SignedOut?
    ensures Alert(WrongAccess) in r.trace <==> event.SignedOut?
    ensures event.SignedIn? ==> r.trace == []
    ensures |r.trace| == if event.SignedOut? then 2 else 0
    ensures r.page.(loading := p.loading) == p
  {
    match event
    case SignedIn(_) => Step(p.(loading := false), [])
    case SignedOut => Step(p.(loading := false), [Alert(WrongAccess), Navigate(Home)])
  }

  /** A session of listener deliveries after mounting. */
  function Observe(p: Page, events: seq<SessionEvent>): Step
    decreases |events|
  {
    if events == [] then Step(p, [])
    else
      var first := OnSessionEvent(p, events[0]);
      var rest := Observe(first.page, events[1..]);
      Step(rest.page, first.trace + rest.trace)
  }

  /**
   The page shows the loading indicator from mounting until the first
   delivery and never after one; it is sent home exactly as many times as
   a signed-out event is delivered.
   */
  lemma {:induction false} GuardSession(p: Page, events: seq<SessionEvent>)
    ensures var mounted := MountGuard(p).page;
      && (events == [] ==> Observe(mounted, events).page.loading)
      && (events != [] ==> !Observe(mounted, events).page.loading)
      && (Navigate(Home) in Observe(mounted, events).trace <==> SignedOut in events)
      && multiset(Observe(mounted, events).trace)[Navigate(Home)] == multiset(events)[SignedOut]
  {
    ObserveFacts(MountGuard(p).page, events);
    NavigationCount(MountGuard(p).page, events);
  }

  /** The loading indicator and the navigations over any run of deliveries. */
  lemma {:induction false} ObserveFacts(p: Page, events: seq<SessionEvent>)
    ensures events == [] ==> Observe(p, events).page == p
    ensures events != [] ==> !Observe(p, events).page.loading
    ensures Navigate(Home) in Observe(p, events).trace <==> SignedOut in events
    decreases |events|
  {
    if events != [] {
      var first := OnSessionEvent(p, events[0]);
      ObserveFacts(first.page, events[1..]);
      assert events == [events[0]] + events[1..];
      assert SignedOut in events <==> events[0] == SignedOut || SignedOut in events[1..];
    }
  }

  /** Over any run of deliveries, one navigation home per signed-out delivery. */
  lemma {:induction false} NavigationCount(p: Page, events: seq<SessionEvent>)
    ensures multiset(Observe(p, events).trace)[Navigate(Home)] == multiset(events)[SignedOut]
    decreases |events|
  {
    if events != [] {
      var first := OnSessionEvent(p, events[0]);
      var rest := Observe(first.page, events[1..]);
      NavigationCount(first.page, events[1..]);
      assert events == [events[0]] + events[1..];
      assert multiset(events) == multiset([events[0]]) + multiset(events[1..]);
      assert multiset(first.trace)[Navigate(Home)] == multiset([events[0]])[SignedOut];
      assert multiset(first.trace + rest.trace) == multiset(first.trace) + multiset(rest.trace);
    }
  }
}
